=== FILE: README.md ===
# Cedar logger — a Dafny model

Cedar is a multiplatform logging facade in the style of Timber. Application
code *plants* `LogTree` sinks into a process-wide *forest*; every log call
is fanned out, in planting order, to each planted tree whose `isLoggable`
accepts it. This project models, with immutable datatypes and pure
functions:

- **the forest** (`forest.dfy`, module `Forest`): `plant` (single and
  variadic), `uproot`, `clearForest`, the `forest()` snapshot,
  `treeCount` and the dispatch of one event. The `Cedar` object's own
  source is not part of this model; its behaviour is taken from the
  contract its test suite asserts, observed through `MockLogTree` trees,
  plus the tear-down assumptions listed below.
  The forest is an ordered multiset (`seq<TreeId>`); a tree is named by
  its index in the sequence of tree objects created so far, which stands
  for object identity.
- **the test double** `MockLogTree` (`mock_log_tree.dfy`): threshold
  filter, append-only captured entries, setup/tearDown/clear and the three
  `getEntriesWith*` queries.
- **the sample application's pure logic** (`sample_app.dfy`):
  `InMemoryLogTree.log` (newest-first buffer capped at 100 entries),
  `formatTimestamp` and the priority badge letter.
- **the platform trees' pure logic**: Android (`android_tree.dfy`), iOS
  (`ios_tree.dfy`), wasm-JS (`wasm_tree.dfy`) and JVM
  (`jvm_tree.dfy`) priority mappings, message assembly, tag truncation and
  chunking. A native logging call is represented by the value it would
  receive (a list of logcat lines, os_log records, one console call, one
  `Logger.log` call). The priority symbol and the `[symbol tag]` header,
  written identically in the iOS and wasm-JS trees, are defined once in
  `badges.dfy`.

Supporting modules: `Wrappers` (Kotlin nullable values as `Option`),
`Logging` (`LogPriority`, throwables, the default tag "AppLogger"),
`Seqs` (first-occurrence removal, `chunked`, `joinToString`, `take`)
and `Decimal` (the decimal rendering of a `Long` in a string template,
with a parser that inverts it).

Constants that come from the platform APIs rather than from the
repository: the `android.util.Log` priorities VERBOSE=2 … ERROR=6, the
`OS_LOG_TYPE_*` values 0x00/0x01/0x02/0x10/0x11, and the
`java.util.logging.Level` values FINEST=300, INFO=800, WARNING=900,
SEVERE=1000.

Edge cases the model keeps from the code: Kotlin's `chunked` yields no
chunk for an empty string, so the Android tree writes nothing for an empty
message without a throwable (`AndroidTree.Log`), while the iOS tree always
writes at least one record because its header is never empty
(`IosTree.Log`). A negative age (an entry stamped in the future) is shown
as "Just now".

Modelling assumptions about the registry, which its tests do not check:
`uproot` tears a tree down when it removes an occurrence, even if other
occurrences of the tree stay planted; uprooting a tree that is not planted
calls no `tearDown`; `clearForest` tears down a tree planted more than
once (once per occurrence, with the same end state). The tests do check
that a tree planted once is torn down by `uproot` and by `clearForest`.

## Model

| member | source | states |
|---|---|---|
| Logging.AtLeastIsTotalOrder | cedar-logging/src/commonTest/kotlin/com/chilinoodles/cedar/logging/MockLogTree.kt:45-47 | The priority comparison used by the threshold filter is a total order with VERBOSE least and ERROR greatest. |
| Seqs.RemoveFirst | cedar-logging/src/commonTest/kotlin/com/chilinoodles/cedar/logging/CedarForestTest.kt:273-291 | Removing a tree that is present shortens the forest by exactly one; removing an absent one returns the forest unchanged. |
| Seqs.RemoveFirstCounts | cedar-logging/src/commonTest/kotlin/com/chilinoodles/cedar/logging/CedarForestTest.kt:273-291 | Removal takes away exactly one occurrence of the tree and leaves the multiplicity of every other tree alone. |
| Seqs.RemoveFirstSplits | cedar-logging/src/commonTest/kotlin/com/chilinoodles/cedar/logging/CedarForestTest.kt:79-92 | Removal cuts the forest at the first occurrence only; the trees before and after keep their positions and order. |
| Seqs.RemoveTimesCount | cedar-logging/src/commonTest/kotlin/com/chilinoodles/cedar/logging/CedarForestTest.kt:273-291 | After n removals a tree planted k times occurs max(k-n, 0) times, every other tree as often as before. |
| Seqs.Chunked | cedar-logging/src/androidMain/kotlin/com/chilinoodles/cedar/logging/trees/PlatformLogTree.kt:9-12 | The chunks concatenate back to the input, each has 1..size characters, all but the last exactly size, and the empty input has no chunk. |
| Decimal.NatToString | sample/src/commonMain/kotlin/io/github/chilinoodles/sample/App.kt:358-360 | The rendered count is a non-empty string of digits with no leading zero. |
| Decimal.ParseNatToString | sample/src/commonMain/kotlin/io/github/chilinoodles/sample/App.kt:358-360 | Parsing the rendered count gives back the number. |
| Decimal.NatToStringInjective | sample/src/commonMain/kotlin/io/github/chilinoodles/sample/App.kt:358-360 | Distinct counts are rendered as distinct numerals. |
| MockLogTree.NewMock | cedar-logging/src/commonTest/kotlin/com/chilinoodles/cedar/logging/MockLogTree.kt:21-23 | A fresh mock has captured nothing, is not set up, and accepts every priority. |
| MockLogTree.SetLoggable | cedar-logging/src/commonTest/kotlin/com/chilinoodles/cedar/logging/MockLogTree.kt:28-30 | After setLoggable(b) the tree accepts exactly the priorities at or above its threshold when b is true and none when it is false; entries, setup state and threshold are untouched. |
| MockLogTree.SetMinPriority | cedar-logging/src/commonTest/kotlin/com/chilinoodles/cedar/logging/MockLogTree.kt:32-34 | After setMinPriority(p) a loggable tree accepts exactly the priorities at or above p and a switched-off tree none; the threshold is stored either way, so switching the tree back on accepts exactly those from p upward. Entries and setup state are untouched. |
| MockLogTree.ThresholdSurvivesSwitchOff | cedar-logging/src/commonTest/kotlin/com/chilinoodles/cedar/logging/MockLogTree.kt:28-34 | setLoggable(false), setMinPriority(p), setLoggable(true) leaves a tree accepting exactly the priorities from p upward. |
| MockLogTree.Setup | cedar-logging/src/commonTest/kotlin/com/chilinoodles/cedar/logging/MockLogTree.kt:36-38 | setup marks the tree set up and keeps its entries and filter. |
| MockLogTree.TearDown | cedar-logging/src/commonTest/kotlin/com/chilinoodles/cedar/logging/MockLogTree.kt:40-43 | tearDown marks the tree not set up and discards every entry, keeping the filter. |
| MockLogTree.IsLoggableThreshold | cedar-logging/src/commonTest/kotlin/com/chilinoodles/cedar/logging/MockLogTree.kt:45-47 | The accepted priorities are exactly those from minPriority upward when loggable, and none otherwise; a fresh-default tree accepts all. |
| MockLogTree.Log | cedar-logging/src/commonTest/kotlin/com/chilinoodles/cedar/logging/MockLogTree.kt:49-57 | log appends one entry with the given fields when the tree accepts the priority, and changes nothing otherwise. |
| MockLogTree.LogEntriesAppendOnly | cedar-logging/src/commonTest/kotlin/com/chilinoodles/cedar/logging/MockLogTree.kt:18-19 | A previously returned entry list is a prefix of the list after a later log, which is at most one longer. |
| MockLogTree.Clear | cedar-logging/src/commonTest/kotlin/com/chilinoodles/cedar/logging/MockLogTree.kt:59-61 | clear discards the entries and leaves isSetup and the filter alone. |
| MockLogTree.SelectCounts | cedar-logging/src/commonTest/kotlin/com/chilinoodles/cedar/logging/MockLogTree.kt:63-73 | A query returns every matching entry as often as it was captured and no non-matching entry. |
| MockLogTree.SelectAppend | cedar-logging/src/commonTest/kotlin/com/chilinoodles/cedar/logging/MockLogTree.kt:63-69 | A query distributes over concatenation, so matching entries keep their capture order. |
| MockLogTree.QueryAfterLog | cedar-logging/src/commonTest/kotlin/com/chilinoodles/cedar/logging/MockLogTree.kt:49-73 | After a log, each query's answer grows by the new entry exactly when the tree accepted it and it matches. |
| MockLogTree.EntriesWithTag | cedar-logging/src/commonTest/kotlin/com/chilinoodles/cedar/logging/MockLogTree.kt:63-65 | Returns an entry exactly when it was captured with that tag, and never more entries than were captured. |
| MockLogTree.EntriesWithPriority | cedar-logging/src/commonTest/kotlin/com/chilinoodles/cedar/logging/MockLogTree.kt:67-69 | Returns an entry exactly when it was captured at that priority, and never more entries than were captured. |
| MockLogTree.EntriesWithThrowable | cedar-logging/src/commonTest/kotlin/com/chilinoodles/cedar/logging/MockLogTree.kt:71-73 | Returns an entry exactly when it was captured with a throwable, and never more entries than were captured. |
| Forest.Empty | cedar-logging/src/commonTest/kotlin/com/chilinoodles/cedar/logging/CedarForestTest.kt:37-41 | The initial forest is empty: treeCount 0 and an empty snapshot. |
| Forest.NewTree | cedar-logging/src/commonTest/kotlin/com/chilinoodles/cedar/logging/CedarForestTest.kt:24-30 | Creating a MockLogTree adds a fresh, unplanted tree object and leaves the forest alone. |
| Forest.Configure | cedar-logging/src/commonTest/kotlin/com/chilinoodles/cedar/logging/CedarForestTest.kt:138-144 | setLoggable/setMinPriority on one tree store both settings, so it accepts exactly the priorities at or above the threshold when loggable and none otherwise; nothing else changes. |
| Forest.Plant | cedar-logging/src/commonTest/kotlin/com/chilinoodles/cedar/logging/CedarForestTest.kt:43-51 | plant grows the forest by one, appends the tree, sets it up, and changes no other tree. |
| Forest.PlantAll | cedar-logging/src/commonTest/kotlin/com/chilinoodles/cedar/logging/CedarForestTest.kt:67-77 | Variadic plant appends all arguments in order, grows the count by their number and sets each of them up; other trees are unchanged. |
| Forest.PlantAllAppend | cedar-logging/src/commonTest/kotlin/com/chilinoodles/cedar/logging/CedarForestTest.kt:53-77 | Planting a list at once equals planting its two halves one after the other. |
| Forest.PlantAllCons | cedar-logging/src/commonTest/kotlin/com/chilinoodles/cedar/logging/CedarForestTest.kt:67-77 | Variadic plant is a single plant of the first argument followed by a plant of the rest. |
| Forest.Uproot | cedar-logging/src/commonTest/kotlin/com/chilinoodles/cedar/logging/CedarForestTest.kt:79-103 | uproot removes one occurrence and tears the tree down; a tree that is not planted leaves the forest exactly as it was. |
| Forest.UprootKeepsOrder | cedar-logging/src/commonTest/kotlin/com/chilinoodles/cedar/logging/CedarForestTest.kt:79-92 | uproot leaves the other trees in the forest in their previous order. |
| Forest.PlantThenUproot | cedar-logging/src/commonTest/kotlin/com/chilinoodles/cedar/logging/CedarForestTest.kt:79-103 | Uprooting a just-planted tree restores the forest contents, and the very same sequence if it was not planted before. |
| Forest.UprootTimesCount | cedar-logging/src/commonTest/kotlin/com/chilinoodles/cedar/logging/CedarForestTest.kt:273-291 | Each uproot removes exactly one occurrence: after n uproots a tree planted k times remains max(k-n, 0) times. |
| Forest.UprootAllOccurrences | cedar-logging/src/commonTest/kotlin/com/chilinoodles/cedar/logging/CedarForestTest.kt:273-291 | After as many uproots as plants the tree is gone, and a further uproot is a no-op. |
| Forest.TearDownAll | cedar-logging/src/commonTest/kotlin/com/chilinoodles/cedar/logging/CedarForestTest.kt:105-119 | Tearing down a list of trees tears down exactly those trees. |
| Forest.ClearForest | cedar-logging/src/commonTest/kotlin/com/chilinoodles/cedar/logging/CedarForestTest.kt:105-119 | clearForest empties the forest and tears down every planted tree; unplanted trees are untouched. |
| Forest.DeliverCounts | cedar-logging/src/commonTest/kotlin/com/chilinoodles/cedar/logging/CedarForestTest.kt:259-271 | Visiting a recipient list gives each accepting tree one entry per occurrence in the list and leaves rejecting trees unchanged. |
| Forest.Dispatch | cedar-logging/src/commonTest/kotlin/com/chilinoodles/cedar/logging/CedarForestTest.kt:121-157 | Dispatch leaves the forest unchanged and gives every tree one copy of the event per planted occurrence if its isLoggable accepts it, none otherwise. |
| Forest.LogAt | cedar-logging/src/commonTest/kotlin/com/chilinoodles/cedar/logging/CedarForestTest.kt:121-136 | A call without a tag leaves the forest unchanged and gives every tree exactly one entry (tag "AppLogger") per planted occurrence when it accepts the event, and leaves it unchanged otherwise. |
| Forest.LogAtLeavesOthers | cedar-logging/src/commonTest/kotlin/com/chilinoodles/cedar/logging/CedarForestTest.kt:138-164 | A tree that is not planted, or whose isLoggable rejects the event, is unchanged by a log call. |
| Forest.LogAtOnce | cedar-logging/src/commonTest/kotlin/com/chilinoodles/cedar/logging/CedarForestTest.kt:121-136 | For a tree planted once, a facade log call has exactly the effect of calling that tree's own log. |
| Forest.DispatchPerOccurrence | cedar-logging/src/commonTest/kotlin/com/chilinoodles/cedar/logging/CedarForestTest.kt:259-271 | A tree planted N times that accepts the event receives exactly N entries; a rejecting tree receives none. |
| Forest.SnapshotIsolation | cedar-logging/src/commonTest/kotlin/com/chilinoodles/cedar/logging/CedarForestTest.kt:166-177 | A snapshot keeps its length after a later plant, while a fresh snapshot is one longer. |
| Forest.FilteredDistributionExample | cedar-logging/src/commonTest/kotlin/com/chilinoodles/cedar/logging/CedarForestTest.kt:138-157 | With thresholds Info and Debug and a switched-off third tree, each planted once in any order, a Debug call reaches only the Debug tree and a later Info call reaches the first two, never the third. |
| Forest.FilteredSetup | cedar-logging/src/commonTest/kotlin/com/chilinoodles/cedar/logging/CedarForestTest.kt:138-144 | Creating three trees, setting thresholds Info and Debug on the first two, switching off the third and planting all three yields three distinct trees planted once each, set up, with no entries and exactly those filters. |
| SampleApp.Push | sample/src/commonMain/kotlin/io/github/chilinoodles/sample/App.kt:60-64 | The new entry is at index 0, the buffer holds at most 100 entries, and the older entries follow as a prefix of the previous buffer. |
| SampleApp.InMemoryLog | sample/src/commonMain/kotlin/io/github/chilinoodles/sample/App.kt:52-65 | InMemoryLogTree.log puts the stamped entry first and grows the buffer by one until it holds 100 entries, after which the length stays 100 and the oldest entry is the one dropped. |
| SampleApp.ReplayKeepsNewest | sample/src/commonMain/kotlin/io/github/chilinoodles/sample/App.kt:47-65 | Whatever sequence was logged, the buffer is its 100 most recent entries, newest first. |
| SampleApp.DescribesUnique | sample/src/commonMain/kotlin/io/github/chilinoodles/sample/App.kt:356-361 | Exactly one bucket (just now, seconds, minutes, hours) fits a given age. |
| SampleApp.AgeOf | sample/src/commonMain/kotlin/io/github/chilinoodles/sample/App.kt:356-361 | Every age has a bucket whose count is the age in whole units rounded down. |
| SampleApp.RenderInjective | sample/src/commonMain/kotlin/io/github/chilinoodles/sample/App.kt:357-360 | Different buckets or counts never produce the same label. |
| SampleApp.FormatAge | sample/src/commonMain/kotlin/io/github/chilinoodles/sample/App.kt:356-361 | The label is "Just now" under 1000 ms (negative ages included), else "{n}s ago", "{n}m ago" or "{n}h ago" for the bucket that fits. |
| SampleApp.LongMinus | sample/src/commonMain/kotlin/io/github/chilinoodles/sample/App.kt:354 | The age is the 64-bit difference, equal to the mathematical difference when that fits in a Long. |
| SampleApp.FormatTimestamp | sample/src/commonMain/kotlin/io/github/chilinoodles/sample/App.kt:352-362 | Whenever now - timestamp fits in a Long, the label is the bucket of that age for a past (or present) timestamp and "Just now" for a future one. |
| SampleApp.PriorityLetter | sample/src/commonMain/kotlin/io/github/chilinoodles/sample/App.kt:285-291 | The badge letter is the first letter of the priority's name. |
| SampleApp.PriorityLetterInjective | sample/src/commonMain/kotlin/io/github/chilinoodles/sample/App.kt:285-291 | The five priorities get five distinct letters. |
| Badges.Symbol | cedar-logging/src/iosMain/kotlin/com/chilinoodles/cedar/logging/trees/PlatformLogTree.kt:34-40 | Each priority has a non-empty emoji symbol. |
| Badges.SymbolDistinct | cedar-logging/src/wasmJsMain/kotlin/com/chilinoodles/cedar/logging/trees/PlatformLogTree.wasmJs.kt:26-32 | The first character of the symbol already tells the five priorities apart. |
| Badges.Header | cedar-logging/src/iosMain/kotlin/com/chilinoodles/cedar/logging/trees/PlatformLogTree.kt:42 | The header is "[", the symbol, one space, the tag and "]", in that order, three characters longer than symbol and tag together. |
| Badges.HeaderInjective | cedar-logging/src/wasmJsMain/kotlin/com/chilinoodles/cedar/logging/trees/PlatformLogTree.wasmJs.kt:34 | The header determines both the priority and the tag. |
| AndroidTree.ToAndroid | cedar-logging/src/androidMain/kotlin/com/chilinoodles/cedar/logging/trees/PlatformLogTree.kt:14-20 | The mapped level is one of the Android priorities 2..6. |
| AndroidTree.ToAndroidOrder | cedar-logging/src/androidMain/kotlin/com/chilinoodles/cedar/logging/trees/PlatformLogTree.kt:14-20 | toAndroid preserves and reflects the priority order, hence is injective. |
| AndroidTree.IsLoggable | cedar-logging/src/androidMain/kotlin/com/chilinoodles/cedar/logging/trees/PlatformLogTree.kt:22 | The Android tree accepts every event. |
| AndroidTree.SafeTag | cedar-logging/src/androidMain/kotlin/com/chilinoodles/cedar/logging/trees/PlatformLogTree.kt:31 | The tag written is a prefix of the tag of length min(len, 23). |
| AndroidTree.FullText | cedar-logging/src/androidMain/kotlin/com/chilinoodles/cedar/logging/trees/PlatformLogTree.kt:33-39 | The full text starts with the message; without throwable it is the message, otherwise a newline and the stack trace follow. |
| AndroidTree.Log | cedar-logging/src/androidMain/kotlin/com/chilinoodles/cedar/logging/trees/PlatformLogTree.kt:24-42 | Every line has the mapped level and the truncated tag; the texts concatenate to the full text in chunks of 1..4000, all but the last exactly 4000; nothing is written only for an empty message without throwable. |
| IosTree.MapToOsLogType | cedar-logging/src/iosMain/kotlin/com/chilinoodles/cedar/logging/trees/PlatformLogTree.kt:64-70 | VERBOSE gets the default type, DEBUG the debug type, INFO the info type, and WARNING and ERROR the types at or above 0x10 with ERROR one above WARNING. |
| IosTree.MapToOsLogTypeInjective | cedar-logging/src/iosMain/kotlin/com/chilinoodles/cedar/logging/trees/PlatformLogTree.kt:64-70 | Each priority gets its own os_log type, and exactly WARNING and ERROR land in the error and fault types. |
| IosTree.IsLoggable | cedar-logging/src/iosMain/kotlin/com/chilinoodles/cedar/logging/trees/PlatformLogTree.kt:25 | The iOS tree accepts every event. |
| IosTree.AllText | cedar-logging/src/iosMain/kotlin/com/chilinoodles/cedar/logging/trees/PlatformLogTree.kt:42-49 | The text is header, space, message, followed by a space and the stack trace only when there is a throwable. |
| IosTree.Log | cedar-logging/src/iosMain/kotlin/com/chilinoodles/cedar/logging/trees/PlatformLogTree.kt:28-62 | At least one record is written, all with the mapped os_log type; the texts concatenate to the joined text in chunks of at most 1000. |
| WasmTree.Route | cedar-logging/src/wasmJsMain/kotlin/com/chilinoodles/cedar/logging/trees/PlatformLogTree.wasmJs.kt:42-48 | No priority is routed to console.log; VERBOSE and DEBUG go to console.debug, and INFO, WARNING and ERROR each go to info, warn and error respectively, and only they do. |
| WasmTree.RouteShape | cedar-logging/src/wasmJsMain/kotlin/com/chilinoodles/cedar/logging/trees/PlatformLogTree.wasmJs.kt:42-48 | VERBOSE and DEBUG share debug, each other priority gets a method of its own, console.log is never used, and the method's severity is monotone in the priority. |
| WasmTree.IsLoggable | cedar-logging/src/wasmJsMain/kotlin/com/chilinoodles/cedar/logging/trees/PlatformLogTree.wasmJs.kt:18 | The wasm-JS tree accepts every event. |
| WasmTree.FullMessage | cedar-logging/src/wasmJsMain/kotlin/com/chilinoodles/cedar/logging/trees/PlatformLogTree.wasmJs.kt:35-40 | The arguments are header and message, plus the stack trace as a third argument exactly when there is a throwable. |
| WasmTree.Log | cedar-logging/src/wasmJsMain/kotlin/com/chilinoodles/cedar/logging/trees/PlatformLogTree.wasmJs.kt:20-49 | One console call: never console.log, debug exactly for VERBOSE and DEBUG, info/warn/error exactly for INFO/WARNING/ERROR; two arguments (header, message) or three with the stack trace, and joined with spaces they are the text the iOS tree writes. |
| WasmTree.SameTextAsIos | cedar-logging/src/wasmJsMain/kotlin/com/chilinoodles/cedar/logging/trees/PlatformLogTree.wasmJs.kt:34-40 | Joined with spaces, the console arguments are exactly the text the iOS tree writes. |
| JvmTree.CheckLevel | cedar-logging/src/jvmMain/kotlin/com/chilinoodles/cedar/logging/trees/PlatformLogTree.jvm.kt:12-17 | VERBOSE and DEBUG map to FINEST; from INFO upward each priority step is one step of 100 in the level value, INFO at 800. |
| JvmTree.LogLevel | cedar-logging/src/jvmMain/kotlin/com/chilinoodles/cedar/logging/trees/PlatformLogTree.jvm.kt:35-40 | The same characterisation for the copy of the mapping inside log. |
| JvmTree.LevelsAgree | cedar-logging/src/jvmMain/kotlin/com/chilinoodles/cedar/logging/trees/PlatformLogTree.jvm.kt:12-17 | The two copies of the mapping give the same level for every priority. |
| JvmTree.ToLevelOrder | cedar-logging/src/jvmMain/kotlin/com/chilinoodles/cedar/logging/trees/PlatformLogTree.jvm.kt:12-17 | The level map is monotone in priority and only VERBOSE and DEBUG share a level. |
| JvmTree.IsLoggable | cedar-logging/src/jvmMain/kotlin/com/chilinoodles/cedar/logging/trees/PlatformLogTree.jvm.kt:11-19 | isLoggable asks the logger about the very level log will write at. |
| JvmTree.IsLoggableThreshold | cedar-logging/src/jvmMain/kotlin/com/chilinoodles/cedar/logging/trees/PlatformLogTree.jvm.kt:11-19 | Over a logger with a level threshold, the tree accepts an upward-closed set of priorities. |
| JvmTree.FullMessage | cedar-logging/src/jvmMain/kotlin/com/chilinoodles/cedar/logging/trees/PlatformLogTree.jvm.kt:27-33 | The message is "[tag] message", followed by a newline and the stack trace only when there is a throwable. |
| JvmTree.Log | cedar-logging/src/jvmMain/kotlin/com/chilinoodles/cedar/logging/trees/PlatformLogTree.jvm.kt:21-47 | log uses the level isLoggable consults for every logger, and passes the throwable to the logger exactly when it is non-null. |

## Left out

- Concurrency: the forest's lock, the mutex inside `MockLogTree` and the concurrent tests are not modelled; every operation is one atomic step of a sequential state machine.
- Failure isolation: a tree whose `setup`, `isLoggable` or `log` throws is not modelled; no modelled tree can fail.
- The `Cedar` object and the `LogTree` interface are not part of this model; the forest is modelled as its tests observe it, over `MockLogTree` trees only, and the default `isLoggable`/`setup`/`tearDown` of `InMemoryLogTree` (inherited from the interface) are not modelled.
- The facade's per-priority convenience calls (`Cedar.d`, `Cedar.e`, …) are one call, `Forest.LogAt`, with the priority as a parameter.
- Native sinks (`Log.println`, `_os_log_internal`, `autoreleasepool`, the JS `Console`, `java.util.logging.Logger`) are represented by the values they would receive; the JVM logger's own level check is a predicate parameter.
- `stackTraceToString` and `Log.getStackTraceString` are foreign calls; a throwable carries one opaque stack-trace string used by both.
- `Clock.System.now()` is a parameter (`now`).
- Strings are sequences of Unicode scalar values, while Kotlin's `take(23)` and `chunked` count UTF-16 code units; an emoji outside the basic plane is one character here and two in Kotlin, so chunk and tag boundaries can differ for such text.
- AndroidTree.ToAndroid: states only the range of the Android constants; the order and injectivity are in AndroidTree.ToAndroidOrder.
- All Compose UI in the sample (layout, colours, dp/sp sizes) and the application entry points (JVM `main`, wasm `main`, the iOS app delegate) are plumbing with no logic to model.
- The common `PlatformLogTree` is only an `expect` declaration; each platform's actual tree is modelled in its own module.
- Forest.Snapshot: carries no contract of its own, because it is the planted sequence itself; Forest.TreeCount has none either, because `treeCount` and `forest()` both read that one sequence, so the count always equals the snapshot's size by construction. That a copy taken earlier does not change is stated by Forest.SnapshotIsolation.
- Forest.Uproot: what the tests leave unchecked, and the model assumes, is the tear-down when one uproot removes one of several occurrences of a tree, the absence of any tear-down when the tree is not planted, and (for Forest.ClearForest) the tear-down of a tree planted more than once; the registry's source is not part of this model.
- SampleApp.FormatTimestamp: its contract covers only clock readings whose difference fits in a Long; when `now - timestamp` overflows, the body follows Kotlin's wrapped difference (for example now = 0 and timestamp = Long.MIN_VALUE give "Just now"), and no clause states that case.

=== FILE: android_tree.dfy ===
/** The Android `PlatformLogTree`: priority mapping, tag truncation, message
    assembly and splitting into logcat-sized chunks. `Log.println` itself is
    represented by the list of lines it would receive. */
module AndroidTree {
  import opened Wrappers
  import opened Logging
  import opened Seqs

  /** Longest text handed to one `Log.println` call. */
  const MaxLogLength: nat := 4000

  /** Longest tag handed to `Log.println`. */
  const MaxTagLength: nat := 23

  /** `toAndroid`: the `android.util.Log` priority constants
      (VERBOSE 2, DEBUG 3, INFO 4, WARN 5, ERROR 6). */
  function ToAndroid(p: Priority): (level: int)
    ensures 2 <= level <= 6
  {
    match p
    case Verbose => 2
    case Debug => 3
    case Info => 4
    case Warning => 5
    case Error => 6
  }

  /** The mapping preserves and reflects the priority order, so distinct
      priorities get distinct Android levels. */
  lemma ToAndroidOrder(p: Priority, q: Priority)
    ensures AtLeast(p, q) <==> ToAndroid(p) >= ToAndroid(q)
    ensures ToAndroid(p) == ToAndroid(q) ==> p == q
  {
  }

  /** This tree takes every event. */
  function IsLoggable(tag: Option<string>, p: Priority): (r: bool)
    ensures r
  {
    true
  }

  /** `tag.take(23)`. */
  function SafeTag(tag: string): (r: string)
    ensures r <= tag
    ensures |r| == if |tag| <= MaxTagLength then |tag| else MaxTagLength
  {
    Take(tag, MaxTagLength)
  }

  /** The message, followed by a line break and the stack trace when there
      is a throwable. */
  function FullText(message: string, throwable: Option<Throwable>): (r: string)
    ensures message <= r
    ensures throwable.None? ==> r == message
    ensures throwable.Some? ==> r[|message|..] == "\n" + throwable.value.stackTrace
  {
    match throwable
    case None => message
    case Some(t) => message + "\n" + t.stackTrace
  }

  /** One `Log.println(priority, tag, text)` call. */
  datatype LogcatLine = LogcatLine(priority: int, tag: string, text: string)

  function Texts(lines: seq<LogcatLine>): (texts: seq<string>)
    ensures |texts| == |lines|
    ensures forall i :: 0 <= i < |lines| ==> texts[i] == lines[i].text
  {
    seq(|lines|, i requires 0 <= i < |lines| => lines[i].text)
  }

  /** `log`: the full text cut into chunks of at most 4000 characters, all
      written with the same level and the same truncated tag. As `chunked`
      yields no chunk for an empty string, an empty message without a
      throwable writes nothing. */
  function Log(p: Priority, tag: string, message: string, throwable: Option<Throwable>): (lines: seq<LogcatLine>)
    ensures forall i :: 0 <= i < |lines| ==> lines[i].priority == ToAndroid(p) && lines[i].tag == SafeTag(tag)
    ensures Flatten(Texts(lines)) == FullText(message, throwable)
    ensures forall i :: 0 <= i < |lines| ==> 0 < |lines[i].text| <= MaxLogLength
    ensures forall i :: 0 <= i < |lines| - 1 ==> |lines[i].text| == MaxLogLength
    ensures |lines| == 0 <==> message == "" && throwable.None?
  {
    var chunks := Chunked(FullText(message, throwable), MaxLogLength);
    var lines := seq(|chunks|, i requires 0 <= i < |chunks| => LogcatLine(ToAndroid(p), SafeTag(tag), chunks[i]));
    assert Texts(lines) == chunks;
    lines
  }
}

=== FILE: badges.dfy ===
/** The priority symbol and the "[symbol tag]" header that the iOS and the
    wasm-JS trees both put in front of a message. */
module Badges {
  import opened Logging

  /** One emoji per priority (Unicode scalar values; the information and
      warning signs carry a variation selector). */
  function Symbol(p: Priority): (s: string)
    ensures |s| > 0
  {
    match p
    case Verbose => "\U{1F50D}"
    case Debug => "\U{1F41E}"
    case Info => "\U{2139}\U{FE0F}"
    case Warning => "\U{26A0}\U{FE0F}"
    case Error => "\U{274C}"
  }

  /** Already the first character of the symbol tells the priorities apart. */
  lemma SymbolDistinct(p: Priority, q: Priority)
    requires Symbol(p)[0] == Symbol(q)[0]
    ensures p == q
  {
  }

  /** `"[$symbol $tag]"`: between the brackets, the symbol, one space and
      the tag, in that order. */
  function Header(p: Priority, tag: string): (h: string)
    ensures |h| == |Symbol(p)| + |tag| + 3
    ensures h[0] == '[' && h[|h| - 1] == ']'
    ensures h[1..|Symbol(p)| + 1] == Symbol(p) && h[|Symbol(p)| + 1] == ' '
    ensures h[|Symbol(p)| + 2..|h| - 1] == tag
  {
    var h := "[" + Symbol(p) + " " + tag + "]";
    assert h[1..|Symbol(p)| + 1] == Symbol(p);
    assert h[|Symbol(p)| + 2..|h| - 1] == tag;
    h
  }

  /** The header determines both the priority and the tag. */
  lemma HeaderInjective(p: Priority, tag: string, q: Priority, tag': string)
    requires Header(p, tag) == Header(q, tag')
    ensures p == q && tag == tag'
  {
    var h := Header(p, tag);
    assert h[1] == Symbol(p)[0];
    assert Header(q, tag')[1] == Symbol(q)[0];
    SymbolDistinct(p, q);
    var k := |Symbol(p)| + 2;
    assert h[k..|h| - 1] == tag;
    assert Header(q, tag')[k..|h| - 1] == tag';
  }
}

=== FILE: decimal.dfy ===
/** Decimal rendering of non-negative integers, as Kotlin's string templates
    render a `Long`, with a parser that inverts it. */
module Decimal {

  predicate IsDigit(c: char) {
    '0' <= c <= '9'
  }

  predicate AllDigits(s: string) {
    forall i :: 0 <= i < |s| ==> IsDigit(s[i])
  }

  function DigitChar(d: nat): (c: char)
    requires d < 10
    ensures IsDigit(c)
  {
    (48 + d) as char
  }

  function DigitValue(c: char): (d: nat)
    requires IsDigit(c)
    ensures d < 10 && DigitChar(d) == c
  {
    (c as int) - 48
  }

  /** Shortest decimal numeral of `n`: non-empty, digits only, no leading zero. */
  function NatToString(n: nat): (s: string)
    ensures |s| > 0 && AllDigits(s)
    ensures |s| > 1 ==> s[0] != '0'
  {
    if n < 10 then [DigitChar(n)] else NatToString(n / 10) + [DigitChar(n % 10)]
  }

  /** Value of a string of decimal digits, most significant first. */
  function ParseDigits(s: string): nat
    requires AllDigits(s)
  {
    if |s| == 0 then 0 else ParseDigits(s[..|s| - 1]) * 10 + DigitValue(s[|s| - 1])
  }

  lemma {:induction false} ParseNatToString(n: nat)
    ensures ParseDigits(NatToString(n)) == n
  {
    var s := NatToString(n);
    if n >= 10 {
      ParseNatToString(n / 10);
      assert s[..|s| - 1] == NatToString(n / 10);
    }
  }

  /** Distinct numbers render as distinct numerals. */
  lemma NatToStringInjective(a: nat, b: nat)
    requires NatToString(a) == NatToString(b)
    ensures a == b
  {
    ParseNatToString(a);
    ParseNatToString(b);
  }
}

=== FILE: forest.dfy ===
/** Cedar's forest: the process-wide ordered multiset of planted trees, and
    the fan-out of each log call to every planted tree that accepts it.
    Trees are the `MockLogTree` doubles through which the registry's
    behaviour is observed; a tree is named by its index in `trees`, which
    stands for object identity. */
module Forest {
  import opened Wrappers
  import opened Logging
  import opened Seqs
  import opened MockLogTree

  type TreeId = nat

  /** `planted` is the forest in planting order, one element per `plant`
      call (so a tree can occur several times); `trees` is the state of every
      tree object created so far, planted or not. */
  datatype Forest = Forest(planted: seq<TreeId>, trees: seq<Mock>)

  /** Only existing trees can be planted. */
  predicate Valid(f: Forest) {
    forall i :: 0 <= i < |f.planted| ==> f.planted[i] < |f.trees|
  }

  /** The trees other than `t` are the same in `f` and `f'`. */
  predicate OthersUnchanged(f: Forest, f': Forest, t: TreeId) {
    |f'.trees| == |f.trees| && forall u :: 0 <= u < |f.trees| && u != t ==> f'.trees[u] == f.trees[u]
  }

  /** `forest()`: an immutable copy of the planted trees, in planting order
      and with one element per occurrence. */
  function Snapshot(f: Forest): seq<TreeId> {
    f.planted
  }

  /** `treeCount`: the number of plantings, equal to the size of a
      snapshot taken at the same moment. */
  function TreeCount(f: Forest): nat {
    |f.planted|
  }

  /** The forest at start-up: nothing planted, no tree created yet. */
  function Empty(): (f: Forest)
    ensures Valid(f) && TreeCount(f) == 0 && Snapshot(f) == []
  {
    Forest([], [])
  }

  /** `MockLogTree()`: a new tree object, not planted. */
  function NewTree(f: Forest): (r: (Forest, TreeId))
    ensures Valid(f) ==> Valid(r.0)
    ensures r.1 == |f.trees| && r.0.trees == f.trees + [NewMock()]
    ensures r.0.planted == f.planted
  {
    (Forest(f.planted, f.trees + [NewMock()]), |f.trees|)
  }

  /** `setLoggable` and `setMinPriority` on tree `t`. */
  function Configure(f: Forest, t: TreeId, loggable: bool, minPriority: Priority): (f': Forest)
    requires Valid(f) && t < |f.trees|
    ensures Valid(f') && f'.planted == f.planted && OthersUnchanged(f, f', t)
    ensures f'.trees[t].entries == f.trees[t].entries && f'.trees[t].isSetup == f.trees[t].isSetup
    ensures f'.trees[t].loggable == loggable && f'.trees[t].minPriority == minPriority
    ensures forall tag, p :: IsLoggable(f'.trees[t], tag, p) <==> loggable && AtLeast(p, minPriority)
  {
    Forest(f.planted, f.trees[t := SetMinPriority(SetLoggable(f.trees[t], loggable), minPriority)])
  }

  /** `plant(tree)`: appends one occurrence of `t` and sets `t` up. */
  function Plant(f: Forest, t: TreeId): (f': Forest)
    requires Valid(f) && t < |f.trees|
    ensures Valid(f') && OthersUnchanged(f, f', t)
    ensures Snapshot(f') == Snapshot(f) + [t] && TreeCount(f') == TreeCount(f) + 1
    ensures f'.trees[t].isSetup
    ensures f'.trees[t].entries == f.trees[t].entries && SameConfig(f.trees[t], f'.trees[t])
  {
    Forest(f.planted + [t], f.trees[t := Setup(f.trees[t])])
  }

  /** `plant(t1, t2, ...)`: plants each argument in turn. */
  function PlantAll(f: Forest, ts: seq<TreeId>): (f': Forest)
    requires Valid(f) && forall i :: 0 <= i < |ts| ==> ts[i] < |f.trees|
    ensures Valid(f') && Snapshot(f') == Snapshot(f) + ts && TreeCount(f') == TreeCount(f) + |ts|
    ensures |f'.trees| == |f.trees|
    ensures forall u :: 0 <= u < |f.trees| ==> f'.trees[u] == if u in ts then Setup(f.trees[u]) else f.trees[u]
    decreases |ts|
  {
    if |ts| == 0 then f
    else
      var h := Plant(f, ts[0]);
      var g := PlantAll(h, ts[1..]);
      assert ts == [ts[0]] + ts[1..];
      assert forall u :: u in ts <==> u == ts[0] || u in ts[1..];
      g
  }

  /** Planting a list at once is planting its two halves one after the other. */
  lemma {:induction false} PlantAllAppend(f: Forest, a: seq<TreeId>, b: seq<TreeId>)
    requires Valid(f)
    requires forall i :: 0 <= i < |a| ==> a[i] < |f.trees|
    requires forall i :: 0 <= i < |b| ==> b[i] < |f.trees|
    ensures PlantAll(f, a + b) == PlantAll(PlantAll(f, a), b)
    decreases |a|
  {
    if |a| == 0 {
      assert a + b == b;
    } else {
      assert (a + b)[0] == a[0] && (a + b)[1..] == a[1..] + b;
      PlantAllAppend(Plant(f, a[0]), a[1..], b);
    }
  }

  /** `plant(t, ts...)` is `plant(t)` followed by `plant(ts...)`; with
      `PlantAllAppend` this makes `plant(t1, t2, t3)` three single plants. */
  lemma PlantAllCons(f: Forest, t: TreeId, ts: seq<TreeId>)
    requires Valid(f) && t < |f.trees| && forall i :: 0 <= i < |ts| ==> ts[i] < |f.trees|
    ensures PlantAll(f, [t] + ts) == PlantAll(Plant(f, t), ts)
    ensures ts == [] ==> PlantAll(f, [t]) == Plant(f, t)
  {
    assert ([t] + ts)[1..] == ts;
  }

  /** `uproot(tree)`: removes one occurrence of `t` and tears `t` down; a tree
      that is not planted is silently ignored. */
  function Uproot(f: Forest, t: TreeId): (f': Forest)
    requires Valid(f)
    ensures Valid(f') && OthersUnchanged(f, f', t)
    ensures t !in Snapshot(f) ==> f' == f
    ensures t in Snapshot(f) ==> TreeCount(f') == TreeCount(f) - 1
    ensures t in Snapshot(f) ==> f'.trees[t] == TearDown(f.trees[t])
    ensures multiset(Snapshot(f')) == multiset(Snapshot(f)) - multiset{t}
  {
    if t in f.planted then
      var rest := RemoveFirst(f.planted, t);
      RemoveFirstCounts(f.planted, t);
      assert forall i :: 0 <= i < |rest| ==> rest[i] in multiset(rest);
      Forest(rest, f.trees[t := TearDown(f.trees[t])])
    else f
  }

  /** `uproot` takes out the first occurrence of the tree and leaves every
      other occurrence where it was, in the same order. */
  lemma UprootKeepsOrder(f: Forest, t: TreeId)
    requires Valid(f) && t in Snapshot(f)
    ensures var i := IndexOf(Snapshot(f), t);
            Snapshot(Uproot(f, t)) == Snapshot(f)[..i] + Snapshot(f)[i + 1..]
  {
    RemoveFirstSplits(f.planted, t);
  }

  /** Uprooting a tree that was just planted gives back the same forest
      contents; if it was not planted before, the very same sequence. */
  lemma PlantThenUproot(f: Forest, t: TreeId)
    requires Valid(f) && t < |f.trees|
    ensures multiset(Snapshot(Uproot(Plant(f, t), t))) == multiset(Snapshot(f))
    ensures t !in Snapshot(f) ==> Snapshot(Uproot(Plant(f, t), t)) == Snapshot(f)
  {
    var s := f.planted + [t];
    if t !in f.planted {
      assert IndexOf(s, t) == |f.planted| by {
        assert s[..|f.planted|] == f.planted;
      }
      RemoveFirstSplits(s, t);
      assert s[..|f.planted|] == f.planted;
    }
  }

  /** `n` successive `uproot(t)` calls. */
  function UprootTimes(f: Forest, t: TreeId, n: nat): (f': Forest)
    requires Valid(f)
    ensures Valid(f')
    decreases n
  {
    if n == 0 then f else UprootTimes(Uproot(f, t), t, n - 1)
  }

  /** Each `uproot` removes exactly one occurrence: after `n` calls a tree
      planted `k` times is planted `k - n` times (never fewer than zero), and
      no other tree's occurrences change. */
  lemma {:induction false} UprootTimesCount(f: Forest, t: TreeId, n: nat, u: TreeId)
    requires Valid(f)
    ensures multiset(Snapshot(UprootTimes(f, t, n)))[u] ==
      if u != t then multiset(Snapshot(f))[u]
      else if n <= multiset(Snapshot(f))[t] then multiset(Snapshot(f))[t] - n
      else 0
    decreases n
  {
    UprootTimesRemoves(f, t, n);
    RemoveTimesCount(f.planted, t, n, u);
  }

  /** On the forest sequence, `n` uproots are `n` first-occurrence removals. */
  lemma {:induction false} UprootTimesRemoves(f: Forest, t: TreeId, n: nat)
    requires Valid(f)
    ensures Snapshot(UprootTimes(f, t, n)) == RemoveTimes(Snapshot(f), t, n)
    decreases n
  {
    if n > 0 {
      UprootTimesRemoves(Uproot(f, t), t, n - 1);
    }
  }

  /** A tree planted `k` times is gone after `k` uproots, and one more
      `uproot` is a no-op. */
  lemma UprootAllOccurrences(f: Forest, t: TreeId)
    requires Valid(f)
    ensures var g := UprootTimes(f, t, multiset(Snapshot(f))[t]);
            t !in Snapshot(g) && Uproot(g, t) == g
  {
    var g := UprootTimes(f, t, multiset(Snapshot(f))[t]);
    UprootTimesCount(f, t, multiset(Snapshot(f))[t], t);
    assert t !in multiset(Snapshot(g));
  }

  /** Tears down every tree of `ts`, in order. */
  function TearDownAll(trees: seq<Mock>, ts: seq<TreeId>): (r: seq<Mock>)
    requires forall i :: 0 <= i < |ts| ==> ts[i] < |trees|
    ensures |r| == |trees|
    ensures forall u :: 0 <= u < |trees| ==> r[u] == if u in ts then TearDown(trees[u]) else trees[u]
    decreases |ts|
  {
    if |ts| == 0 then trees
    else
      var r := TearDownAll(trees[ts[0] := TearDown(trees[ts[0]])], ts[1..]);
      assert forall u :: u in ts <==> u == ts[0] || u in ts[1..];
      r
  }

  /** `clearForest()`: tears down every planted tree and empties the forest;
      trees that were not planted are untouched. */
  function ClearForest(f: Forest): (f': Forest)
    requires Valid(f)
    ensures Valid(f') && TreeCount(f') == 0 && Snapshot(f') == [] && |f'.trees| == |f.trees|
    ensures forall u :: u in Snapshot(f) ==> f'.trees[u] == TearDown(f.trees[u])
    ensures forall u :: 0 <= u < |f.trees| && u !in Snapshot(f) ==> f'.trees[u] == f.trees[u]
  {
    Forest([], TearDownAll(f.trees, f.planted))
  }

  /** One log call as the trees receive it. */
  datatype Event = Event(priority: Priority, tag: string, message: string, throwable: Option<Throwable>)

  function EntryOf(ev: Event): LogEntry {
    LogEntry(ev.priority, ev.tag, ev.message, ev.throwable)
  }

  predicate Accepts(m: Mock, ev: Event) {
    IsLoggable(m, Some(ev.tag), ev.priority)
  }

  /** One step of the fan-out: ask tree `t`, and log to it if it accepts. */
  function Visit(trees: seq<Mock>, t: TreeId, ev: Event): (r: seq<Mock>)
    requires t < |trees|
    ensures |r| == |trees|
  {
    if Accepts(trees[t], ev) then
      trees[t := Log(trees[t], ev.priority, ev.tag, ev.message, ev.throwable)]
    else trees
  }

  /** Visits the recipients in order. */
  function Deliver(trees: seq<Mock>, recipients: seq<TreeId>, ev: Event): (r: seq<Mock>)
    requires forall i :: 0 <= i < |recipients| ==> recipients[i] < |trees|
    ensures |r| == |trees|
    decreases |recipients|
  {
    if |recipients| == 0 then trees
    else Deliver(Visit(trees, recipients[0], ev), recipients[1..], ev)
  }

  /** The state of tree `u` after a fan-out to `recipients`: if it accepts the
      event it has gained one entry per occurrence in `recipients`, otherwise
      it is unchanged. */
  predicate Delivered(before: Mock, after: Mock, ev: Event, occurrences: nat) {
    if Accepts(before, ev)
    then after == before.(entries := before.entries + Repeat(EntryOf(ev), occurrences))
    else after == before
  }

  lemma {:induction false} DeliverCounts(trees: seq<Mock>, recipients: seq<TreeId>, ev: Event, u: TreeId)
    requires forall i :: 0 <= i < |recipients| ==> recipients[i] < |trees|
    requires u < |trees|
    ensures Delivered(trees[u], Deliver(trees, recipients, ev)[u], ev, multiset(recipients)[u])
    decreases |recipients|
  {
    if |recipients| == 0 {
      assert trees[u].(entries := trees[u].entries + []) == trees[u];
    } else {
      var t := recipients[0];
      var next := Visit(trees, t, ev);
      DeliverCounts(next, recipients[1..], ev, u);
      assert recipients == [t] + recipients[1..];
      var k := multiset(recipients[1..])[u];
      if u == t && Accepts(trees[u], ev) {
        RepeatSucc(EntryOf(ev), k);
        assert trees[u].entries + [EntryOf(ev)] + Repeat(EntryOf(ev), k)
            == trees[u].entries + Repeat(EntryOf(ev), k + 1);
      }
    }
  }

  /** Fan-out of one event over a snapshot of the forest. The forest itself
      is not changed; every tree receives one entry per planted occurrence
      if its `isLoggable` accepts the event, and none otherwise. */
  function Dispatch(f: Forest, ev: Event): (f': Forest)
    requires Valid(f)
    ensures Valid(f') && Snapshot(f') == Snapshot(f) && |f'.trees| == |f.trees|
    ensures forall u :: 0 <= u < |f.trees| ==> Delivered(f.trees[u], f'.trees[u], ev, multiset(Snapshot(f))[u])
  {
    var trees := Deliver(f.trees, Snapshot(f), ev);
    assert forall u :: 0 <= u < |f.trees| ==> Delivered(f.trees[u], trees[u], ev, multiset(Snapshot(f))[u]) by {
      forall u | 0 <= u < |f.trees| {
        DeliverCounts(f.trees, Snapshot(f), ev, u);
      }
    }
    Forest(f.planted, trees)
  }

  /** The facade's `log(priority, message, tag, throwable)`: an absent tag
      becomes "AppLogger". */
  function LogAt(f: Forest, p: Priority, message: string, tag: Option<string>, throwable: Option<Throwable>): (f': Forest)
    requires Valid(f)
    ensures Valid(f') && Snapshot(f') == Snapshot(f) && |f'.trees| == |f.trees|
    ensures forall u :: u in Snapshot(f) && IsLoggable(f.trees[u], Some(tag.GetOr(DefaultTag)), p) ==>
      EndsWith(f'.trees[u].entries, LogEntry(p, tag.GetOr(DefaultTag), message, throwable))
    ensures forall u :: 0 <= u < |f.trees| ==>
      Delivered(f.trees[u], f'.trees[u], Event(p, tag.GetOr(DefaultTag), message, throwable), multiset(Snapshot(f))[u])
  {
    var ev := Event(p, tag.GetOr(DefaultTag), message, throwable);
    var f' := Dispatch(f, ev);
    assert forall u :: u in Snapshot(f) ==> multiset(Snapshot(f))[u] > 0;
    assert forall u :: u in Snapshot(f) && Accepts(f.trees[u], ev) ==> EndsWith(f'.trees[u].entries, EntryOf(ev)) by {
      forall u | u in Snapshot(f) && Accepts(f.trees[u], ev)
        ensures EndsWith(f'.trees[u].entries, EntryOf(ev))
      {
        var k := multiset(Snapshot(f))[u];
        RepeatSucc(EntryOf(ev), k - 1);
      }
    }
    f'
  }

  /** A log call leaves alone every tree that is not planted or whose
      `isLoggable` rejects the event. */
  lemma LogAtLeavesOthers(f: Forest, p: Priority, message: string, tag: Option<string>, throwable: Option<Throwable>, u: TreeId)
    requires Valid(f) && u < |f.trees|
    requires u !in Snapshot(f) || !IsLoggable(f.trees[u], Some(tag.GetOr(DefaultTag)), p)
    ensures LogAt(f, p, message, tag, throwable).trees[u] == f.trees[u]
  {
    var ev := Event(p, tag.GetOr(DefaultTag), message, throwable);
    var g := LogAt(f, p, message, tag, throwable);
    assert Delivered(f.trees[u], g.trees[u], ev, multiset(Snapshot(f))[u]);
    if u !in Snapshot(f) {
      assert multiset(Snapshot(f))[u] == 0;
      assert f.trees[u].entries + Repeat(EntryOf(ev), 0) == f.trees[u].entries;
    }
  }

  predicate EndsWith<T(==)>(s: seq<T>, x: T) {
    |s| > 0 && s[|s| - 1] == x
  }

  /** Multiset semantics: a tree planted `n` times that accepts the event
      receives exactly `n` copies of it; a tree that rejects it receives
      nothing, however often it is planted. */
  lemma DispatchPerOccurrence(f: Forest, ev: Event, u: TreeId)
    requires Valid(f) && u < |f.trees|
    ensures Accepts(f.trees[u], ev) ==>
      |Dispatch(f, ev).trees[u].entries| == |f.trees[u].entries| + multiset(Snapshot(f))[u]
    ensures !Accepts(f.trees[u], ev) ==> Dispatch(f, ev).trees[u].entries == f.trees[u].entries
  {
  }

  /** The snapshot returned by `forest()` is a value: planting afterwards
      leaves its length alone, while a fresh snapshot sees the new tree. */
  lemma SnapshotIsolation(f: Forest, t: TreeId)
    requires Valid(f) && t < |f.trees|
    ensures var before := Snapshot(f);
            var after := Plant(f, t);
            |before| == TreeCount(f) && |Snapshot(after)| == |before| + 1
  {
  }

  /** Three distinct trees, each planted exactly once, in any order. */
  predicate PlantedOnceEach(f: Forest, a: TreeId, b: TreeId, c: TreeId) {
    && Valid(f) && a < |f.trees| && b < |f.trees| && c < |f.trees|
    && a != b && b != c && a != c
    && multiset(Snapshot(f)) == multiset{a, b, c}
  }

  /** The filtered-distribution example: tree `a` only takes Info and
      above, tree `b` takes Debug and above, tree `c` is switched off, each
      planted once, in any order. A Debug call `d` reaches `b` alone, with
      the default tag; a later Info call `i` reaches `a` and `b` and still
      not `c`. */
  lemma {:induction false} FilteredDistributionExample(f: Forest, a: TreeId, b: TreeId, c: TreeId, d: string, i: string)
    requires PlantedOnceEach(f, a, b, c)
    requires f.trees[a] == Mock([], true, true, Info)
    requires f.trees[b] == Mock([], true, true, Debug)
    requires f.trees[c] == Mock([], true, false, Verbose)
    ensures var f5 := LogAt(f, Debug, d, None, None);
            var f6 := LogAt(f5, Info, i, None, None);
            && f5.trees[a].entries == []
            && f5.trees[b].entries == [LogEntry(Debug, DefaultTag, d, None)]
            && f5.trees[c].entries == []
            && f6.trees[a].entries == [LogEntry(Info, DefaultTag, i, None)]
            && f6.trees[b].entries == [LogEntry(Debug, DefaultTag, d, None), LogEntry(Info, DefaultTag, i, None)]
            && f6.trees[c].entries == []
  {
    FilteredDebugCall(f, a, b, c, d);
    FilteredInfoCall(LogAt(f, Debug, d, None, None), a, b, c, d, i);
  }

  /** The set-up steps of the example, from a cleared forest: three new
      trees; `setMinPriority(Info)` on the first, `setMinPriority(Debug)`
      on the second, `setLoggable(false)` on the third; then one variadic
      `plant`. They produce exactly the states the example starts from. */
  lemma {:induction false} FilteredSetup(f0: Forest)
    requires Valid(f0) && Snapshot(f0) == []
    ensures var r1 := NewTree(f0);
            var r2 := NewTree(r1.0);
            var r3 := NewTree(r2.0);
            var a, b, c := r1.1, r2.1, r3.1;
            var f4 := Configure(Configure(Configure(r3.0, a, true, Info), b, true, Debug), c, false, Verbose);
            var f5 := PlantAll(f4, [a, b, c]);
            && PlantedOnceEach(f5, a, b, c)
            && f5.trees[a] == Mock([], true, true, Info)
            && f5.trees[b] == Mock([], true, true, Debug)
            && f5.trees[c] == Mock([], true, false, Verbose)
  {
    var r1 := NewTree(f0);
    var r2 := NewTree(r1.0);
    var r3 := NewTree(r2.0);
    var a, b, c := r1.1, r2.1, r3.1;
    assert b == a + 1 && c == a + 2 && |r3.0.trees| == a + 3;
    assert r3.0.trees[a] == NewMock() && r3.0.trees[b] == NewMock() && r3.0.trees[c] == NewMock();
    var f4 := Configure(Configure(Configure(r3.0, a, true, Info), b, true, Debug), c, false, Verbose);
    assert f4.trees[a] == Mock([], false, true, Info);
    assert f4.trees[b] == Mock([], false, true, Debug);
    assert f4.trees[c] == Mock([], false, false, Verbose);
    var f5 := PlantAll(f4, [a, b, c]);
    assert Snapshot(f5) == [a, b, c];
    assert multiset(Snapshot(f5)) == multiset{a, b, c};
  }

  /** The first call of the example: Debug reaches only `b`. */
  lemma {:induction false} FilteredDebugCall(f: Forest, a: TreeId, b: TreeId, c: TreeId, d: string)
    requires PlantedOnceEach(f, a, b, c)
    requires f.trees[a] == Mock([], true, true, Info)
    requires f.trees[b] == Mock([], true, true, Debug)
    requires f.trees[c] == Mock([], true, false, Verbose)
    ensures var g := LogAt(f, Debug, d, None, None);
            && PlantedOnceEach(g, a, b, c)
            && g.trees[a] == Mock([], true, true, Info)
            && g.trees[b] == Mock([LogEntry(Debug, DefaultTag, d, None)], true, true, Debug)
            && g.trees[c] == Mock([], true, false, Verbose)
  {
    ThreeTreesStep(f, a, b, c, Debug, d);
  }

  /** The second call of the example: Info reaches `a` and `b`, not `c`. */
  lemma {:induction false} FilteredInfoCall(g: Forest, a: TreeId, b: TreeId, c: TreeId, d: string, i: string)
    requires PlantedOnceEach(g, a, b, c)
    requires g.trees[a] == Mock([], true, true, Info)
    requires g.trees[b] == Mock([LogEntry(Debug, DefaultTag, d, None)], true, true, Debug)
    requires g.trees[c] == Mock([], true, false, Verbose)
    ensures var h := LogAt(g, Info, i, None, None);
            && h.trees[a].entries == [LogEntry(Info, DefaultTag, i, None)]
            && h.trees[b].entries == [LogEntry(Debug, DefaultTag, d, None), LogEntry(Info, DefaultTag, i, None)]
            && h.trees[c].entries == []
  {
    ThreeTreesStep(g, a, b, c, Info, i);
  }

  /** One untagged log call over three trees planted once each. */
  lemma {:induction false} ThreeTreesStep(f: Forest, a: TreeId, b: TreeId, c: TreeId, p: Priority, message: string)
    requires PlantedOnceEach(f, a, b, c)
    ensures var g := LogAt(f, p, message, None, None);
            && PlantedOnceEach(g, a, b, c)
            && g.trees[a] == Log(f.trees[a], p, DefaultTag, message, None)
            && g.trees[b] == Log(f.trees[b], p, DefaultTag, message, None)
            && g.trees[c] == Log(f.trees[c], p, DefaultTag, message, None)
  {
    assert multiset(Snapshot(f))[a] == 1 && multiset(Snapshot(f))[b] == 1 && multiset(Snapshot(f))[c] == 1;
    LogAtOnce(f, p, message, None, None, a);
    LogAtOnce(f, p, message, None, None, b);
    LogAtOnce(f, p, message, None, None, c);
  }

  /** A tree planted once sees a facade log call exactly as a direct call
      of its own `log`: one entry if it accepts the event, none otherwise. */
  lemma {:induction false} LogAtOnce(f: Forest, p: Priority, message: string, tag: Option<string>, throwable: Option<Throwable>, u: TreeId)
    requires Valid(f) && u < |f.trees| && multiset(Snapshot(f))[u] == 1
    ensures LogAt(f, p, message, tag, throwable).trees[u] == Log(f.trees[u], p, tag.GetOr(DefaultTag), message, throwable)
  {
    var ev := Event(p, tag.GetOr(DefaultTag), message, throwable);
    var g := LogAt(f, p, message, tag, throwable);
    assert Delivered(f.trees[u], g.trees[u], ev, 1);
    assert Repeat(EntryOf(ev), 1) == [EntryOf(ev)];
  }
}

=== FILE: ios_tree.dfy ===
/** The iOS `PlatformLogTree`: the text handed to `_os_log_internal`, its
    1000-character chunks and the os_log type. The native call and the
    autorelease pool are represented by the list of records written. */
module IosTree {
  import opened Wrappers
  import opened Logging
  import opened Seqs
  import opened Badges

  /** Longest text of one os_log record. */
  const ChunkLength: nat := 1000

  /** `os_log_type_t`. */
  datatype OsLogType = OsDefault | OsDebug | OsInfo | OsError | OsFault

  /** The values of the `OS_LOG_TYPE_*` constants. */
  function TypeByte(t: OsLogType): int {
    match t
    case OsDefault => 0x00
    case OsInfo => 0x01
    case OsDebug => 0x02
    case OsError => 0x10
    case OsFault => 0x11
  }

  /** `mapToOsLogType`: warnings and errors go to the two types the system
      keeps as errors and faults, everything below to the lower types. */
  function MapToOsLogType(p: Priority): (t: OsLogType)
    ensures TypeByte(t) >= 0x10 <==> AtLeast(p, Warning)
    ensures AtLeast(p, Warning) ==> TypeByte(t) == 0x10 + (Ordinal(p) - Ordinal(Warning))
    ensures p == Verbose <==> t == OsDefault
    ensures p == Debug <==> t == OsDebug
    ensures p == Info <==> t == OsInfo
  {
    match p
    case Verbose => OsDefault
    case Debug => OsDebug
    case Info => OsInfo
    case Warning => OsError
    case Error => OsFault
  }

  /** Each priority gets its own os_log type; warnings and errors land in
      the two types the system persists as errors and faults. */
  lemma MapToOsLogTypeInjective(p: Priority, q: Priority)
    ensures TypeByte(MapToOsLogType(p)) == TypeByte(MapToOsLogType(q)) <==> p == q
    ensures TypeByte(MapToOsLogType(p)) >= 0x10 <==> AtLeast(p, Warning)
  {
  }

  /** This tree takes every event. */
  function IsLoggable(tag: Option<string>, p: Priority): (r: bool)
    ensures r
  {
    true
  }

  /** `buildList { header; body; errorDump? }.joinToString(" ")`: the
      header, a space and the message, then a space and the stack trace
      only when there is a throwable. */
  function AllText(p: Priority, tag: string, message: string, throwable: Option<Throwable>): (r: string)
    ensures throwable.None? ==> r == Header(p, tag) + " " + message
    ensures throwable.Some? ==> r == Header(p, tag) + " " + message + " " + throwable.value.stackTrace
  {
    var h := Header(p, tag);
    var parts := [h, message] + (if throwable.Some? then [throwable.value.stackTrace] else []);
    if throwable.Some? then
      var st := throwable.value.stackTrace;
      assert parts == [h, message, st];
      assert parts[1..] == [message, st];
      assert parts[1..][1..] == [st];
      assert Join(parts[1..], " ") == message + " " + st;
      assert Join(parts, " ") == h + " " + (message + " " + st);
      Join(parts, " ")
    else
      assert parts == [h, message];
      assert parts[1..] == [message];
      assert Join(parts, " ") == h + " " + message;
      Join(parts, " ")
  }

  /** One `_os_log_internal(..., type, "%s", chunk)` call. */
  datatype OsLogRecord = OsLogRecord(logType: OsLogType, text: string)

  function Texts(records: seq<OsLogRecord>): (texts: seq<string>)
    ensures |texts| == |records|
    ensures forall i :: 0 <= i < |records| ==> texts[i] == records[i].text
  {
    seq(|records|, i requires 0 <= i < |records| => records[i].text)
  }

  /** `log`: at least one record (the header is never empty), all of the
      same os_log type, whose texts are the 1000-character chunks of the
      joined text. */
  function Log(p: Priority, tag: string, message: string, throwable: Option<Throwable>): (records: seq<OsLogRecord>)
    ensures |records| > 0
    ensures forall i :: 0 <= i < |records| ==> records[i].logType == MapToOsLogType(p)
    ensures Flatten(Texts(records)) == AllText(p, tag, message, throwable)
    ensures forall i :: 0 <= i < |records| ==> 0 < |records[i].text| <= ChunkLength
    ensures forall i :: 0 <= i < |records| - 1 ==> |records[i].text| == ChunkLength
  {
    var chunks := Chunked(AllText(p, tag, message, throwable), ChunkLength);
    var records := seq(|chunks|, i requires 0 <= i < |chunks| => OsLogRecord(MapToOsLogType(p), chunks[i]));
    assert Texts(records) == chunks;
    records
  }
}

=== FILE: jvm_tree.dfy ===
/** The JVM `PlatformLogTree` on top of `java.util.logging`. The logger's
    own level check is a parameter; a call to `Logger.log` is represented by
    the record it receives. */
module JvmTree {
  import opened Wrappers
  import opened Logging

  /** The `java.util.logging.Level` constants this tree uses. */
  datatype Level = FINEST | INFO | WARNING | SEVERE

  /** `Level.intValue()`. */
  function LevelValue(l: Level): int {
    match l
    case FINEST => 300
    case INFO => 800
    case WARNING => 900
    case SEVERE => 1000
  }

  /** The priority-to-level `when` inside `isLoggable`: Verbose and Debug
      share FINEST, and from Info upward each step of priority is one step
      of 100 in `Level.intValue()`. */
  function CheckLevel(p: Priority): (l: Level)
    ensures !AtLeast(p, Info) <==> l == FINEST
    ensures AtLeast(p, Info) ==> LevelValue(l) == 600 + 100 * Ordinal(p)
  {
    match p
    case Verbose => FINEST
    case Debug => FINEST
    case Info => INFO
    case Warning => WARNING
    case Error => SEVERE
  }

  /** The same `when`, written a second time inside `log`. */
  function LogLevel(p: Priority): (l: Level)
    ensures !AtLeast(p, Info) <==> l == FINEST
    ensures AtLeast(p, Info) ==> LevelValue(l) == 600 + 100 * Ordinal(p)
  {
    match p
    case Verbose => FINEST
    case Debug => FINEST
    case Info => INFO
    case Warning => WARNING
    case Error => SEVERE
  }

  /** The two copies of the mapping agree: `log` writes at the level that
      `isLoggable` asked the logger about. */
  lemma LevelsAgree(p: Priority)
    ensures CheckLevel(p) == LogLevel(p)
  {
  }

  /** The mapping is monotone, and only Verbose and Debug collapse. */
  lemma ToLevelOrder(p: Priority, q: Priority)
    ensures AtLeast(p, q) ==> LevelValue(CheckLevel(p)) >= LevelValue(CheckLevel(q))
    ensures CheckLevel(p) == CheckLevel(q) <==> p == q || (!AtLeast(p, Info) && !AtLeast(q, Info))
  {
  }

  /** `isLoggable`: asks the logger about the mapped level; the tag is
      ignored. */
  function IsLoggable(loggerAccepts: Level -> bool, tag: Option<string>, p: Priority): (r: bool)
    ensures r == loggerAccepts(LogLevel(p))
  {
    LevelsAgree(p);
    loggerAccepts(CheckLevel(p))
  }

  /** A logger with a level threshold (as `Logger.isLoggable` has) makes this
      tree accept an upward-closed set of priorities. */
  lemma IsLoggableThreshold(threshold: int, tag: Option<string>, p: Priority, q: Priority)
    requires IsLoggable(l => LevelValue(l) >= threshold, tag, p) && AtLeast(q, p)
    ensures IsLoggable(l => LevelValue(l) >= threshold, tag, q)
  {
    ToLevelOrder(q, p);
  }

  /** `"[$tag] $message"`, then a line break and the stack trace when there
      is a throwable. */
  function FullMessage(tag: string, message: string, throwable: Option<Throwable>): (r: string)
    ensures "[" + tag + "] " + message <= r
    ensures throwable.None? ==> |r| == |tag| + |message| + 3
    ensures throwable.Some? ==> r[|tag| + |message| + 3..] == "\n" + throwable.value.stackTrace
  {
    var head := "[" + tag + "] " + message;
    match throwable
    case None => head
    case Some(t) => head + "\n" + t.stackTrace
  }

  /** The two `Logger.log` overloads the tree calls. */
  datatype LoggerCall =
    | LogPlain(level: Level, message: string)
    | LogThrown(level: Level, message: string, thrown: Throwable)

  /** `log`: the record goes out at the very level `isLoggable` asked the
      logger about, and carries the throwable exactly when there is one. */
  function Log(p: Priority, tag: string, message: string, throwable: Option<Throwable>): (call: LoggerCall)
    ensures forall accepts: Level -> bool :: IsLoggable(accepts, Some(tag), p) == accepts(call.level)
    ensures call.LogThrown? <==> throwable.Some?
    ensures call.LogThrown? ==> Some(call.thrown) == throwable
    ensures call.message == FullMessage(tag, message, throwable)
  {
    LevelsAgree(p);
    var level := LogLevel(p);
    match throwable
    case Some(t) => LogThrown(level, FullMessage(tag, message, throwable), t)
    case None => LogPlain(level, FullMessage(tag, message, throwable))
  }
}

=== FILE: logging.dfy ===
/** The vocabulary shared by every log tree: priorities, throwables and the
    facade's default tag. */
module Logging {

  /** Kotlin's `LogPriority`, least severe first. */
  datatype Priority = Verbose | Debug | Info | Warning | Error

  const AllPriorities: seq<Priority> := [Verbose, Debug, Info, Warning, Error]

  /** Declaration order; Kotlin compares enum values by it. */
  function Ordinal(p: Priority): (n: nat)
    ensures n < |AllPriorities| && AllPriorities[n] == p
  {
    match p
    case Verbose => 0
    case Debug => 1
    case Info => 2
    case Warning => 3
    case Error => 4
  }

  /** The enum constant's `name`. */
  function Name(p: Priority): string {
    match p
    case Verbose => "VERBOSE"
    case Debug => "DEBUG"
    case Info => "INFO"
    case Warning => "WARNING"
    case Error => "ERROR"
  }

  /** `p >= q` in Kotlin's enum ordering. */
  predicate AtLeast(p: Priority, q: Priority) {
    Ordinal(p) >= Ordinal(q)
  }

  /** The ordering is a total order on the five priorities, with Verbose
      least and Error greatest. */
  lemma AtLeastIsTotalOrder(p: Priority, q: Priority, s: Priority)
    ensures AtLeast(p, p)
    ensures AtLeast(p, q) && AtLeast(q, p) ==> p == q
    ensures AtLeast(p, q) && AtLeast(q, s) ==> AtLeast(p, s)
    ensures AtLeast(p, q) || AtLeast(q, p)
    ensures AtLeast(p, Verbose) && AtLeast(Error, p)
  {
  }

  /** A thrown value. Its stack trace comes from a foreign call
      (`stackTraceToString`, `Log.getStackTraceString`) and is carried as an
      opaque string; `id` stands for object identity. */
  datatype Throwable = Throwable(id: nat, stackTrace: string)

  /** Tag used by the facade's convenience calls when none is given. */
  const DefaultTag: string := "AppLogger"
}

=== FILE: mock_log_tree.dfy ===
/** The test double `MockLogTree`: a threshold filter in front of an
    append-only list of captured entries. */
module MockLogTree {
  import opened Wrappers
  import opened Logging

  datatype LogEntry = LogEntry(priority: Priority, tag: string, message: string, throwable: Option<Throwable>)

  datatype Mock = Mock(entries: seq<LogEntry>, isSetup: bool, loggable: bool, minPriority: Priority)

  /** The filter configuration is unchanged between `m` and `m'`. */
  predicate SameConfig(m: Mock, m': Mock) {
    m'.loggable == m.loggable && m'.minPriority == m.minPriority
  }

  /** `MockLogTree()`: nothing captured, not set up, accepting every priority. */
  function NewMock(): (m: Mock)
    ensures m.entries == [] && !m.isSetup
    ensures forall tag, p :: IsLoggable(m, tag, p)
  {
    Mock([], false, true, Verbose)
  }

  function SetLoggable(m: Mock, loggable: bool): (m': Mock)
    ensures m'.entries == m.entries && m'.isSetup == m.isSetup && m'.minPriority == m.minPriority
    ensures forall tag, q :: IsLoggable(m', tag, q) <==> loggable && AtLeast(q, m.minPriority)
  {
    m.(loggable := loggable)
  }

  function SetMinPriority(m: Mock, p: Priority): (m': Mock)
    ensures m'.entries == m.entries && m'.isSetup == m.isSetup && m'.loggable == m.loggable
    ensures forall tag, q :: IsLoggable(m', tag, q) <==> m.loggable && AtLeast(q, p)
    ensures forall tag, q :: IsLoggable(m'.(loggable := true), tag, q) <==> AtLeast(q, p)
  {
    m.(minPriority := p)
  }

  /** The threshold is stored even while the tree is switched off: after
      `setLoggable(false)`, `setMinPriority(p)`, `setLoggable(true)` the tree
      accepts exactly the priorities from `p` upward. */
  lemma ThresholdSurvivesSwitchOff(m: Mock, p: Priority, q: Priority, tag: Option<string>)
    ensures IsLoggable(SetLoggable(SetMinPriority(SetLoggable(m, false), p), true), tag, q) <==> AtLeast(q, p)
  {
    var off := SetLoggable(m, false);
    var stored := SetMinPriority(off, p);
    assert stored.(loggable := true) == SetLoggable(stored, true);
  }

  function Setup(m: Mock): (m': Mock)
    ensures m'.isSetup
    ensures m'.entries == m.entries && SameConfig(m, m')
  {
    m.(isSetup := true)
  }

  /** `tearDown`: no longer set up, and every captured entry is discarded. */
  function TearDown(m: Mock): (m': Mock)
    ensures !m'.isSetup && m'.entries == []
    ensures SameConfig(m, m')
  {
    m.(isSetup := false, entries := [])
  }

  /** The tag is accepted but ignored. */
  predicate IsLoggable(m: Mock, tag: Option<string>, p: Priority) {
    m.loggable && AtLeast(p, m.minPriority)
  }

  /** What `isLoggable` accepts is exactly the priorities from `minPriority`
      upward, or nothing at all when `loggable` is off. */
  lemma IsLoggableThreshold(m: Mock, tag: Option<string>, p: Priority, q: Priority)
    ensures IsLoggable(m, tag, p) && AtLeast(q, p) ==> IsLoggable(m, tag, q)
    ensures m.loggable <==> IsLoggable(m, tag, Error)
    ensures (forall r :: IsLoggable(m, tag, r)) <==> m.loggable && m.minPriority == Verbose
  {
    if m.loggable && m.minPriority != Verbose {
      assert !IsLoggable(m, tag, Verbose);
    }
  }

  /** `log`: appends one entry with exactly the given fields when the tree
      accepts the priority, and changes nothing otherwise. */
  function Log(m: Mock, p: Priority, tag: string, message: string, throwable: Option<Throwable>): (m': Mock)
    ensures IsLoggable(m, Some(tag), p) ==> m'.entries == m.entries + [LogEntry(p, tag, message, throwable)]
    ensures !IsLoggable(m, Some(tag), p) ==> m' == m
    ensures m'.isSetup == m.isSetup && SameConfig(m, m')
  {
    if IsLoggable(m, Some(tag), p) then
      m.(entries := m.entries + [LogEntry(p, tag, message, throwable)])
    else m
  }

  /** `logEntries` hands out a copy: a list obtained earlier is a prefix of
      every later one until the tree is cleared or torn down. */
  lemma LogEntriesAppendOnly(m: Mock, p: Priority, tag: string, message: string, throwable: Option<Throwable>)
    ensures m.entries <= Log(m, p, tag, message, throwable).entries
    ensures |Log(m, p, tag, message, throwable).entries| <= |m.entries| + 1
  {
  }

  /** `clear`: discards the captured entries and leaves `isSetup` alone. */
  function Clear(m: Mock): (m': Mock)
    ensures m'.entries == [] && m'.isSetup == m.isSetup && SameConfig(m, m')
  {
    m.(entries := [])
  }

  /** The three `getEntriesWith*` queries. */
  datatype Query = WithTag(tag: string) | WithPriority(priority: Priority) | WithThrowable

  predicate Matches(q: Query, e: LogEntry) {
    match q
    case WithTag(t) => e.tag == t
    case WithPriority(p) => e.priority == p
    case WithThrowable => e.throwable.Some?
  }

  /** Kotlin's `filter` specialised to a query: the matching entries, in order. */
  function Select(s: seq<LogEntry>, q: Query): (r: seq<LogEntry>)
    ensures |r| <= |s|
  {
    if |s| == 0 then []
    else (if Matches(q, s[0]) then [s[0]] else []) + Select(s[1..], q)
  }

  /** `Select` keeps every matching entry as often as it occurs, and nothing else. */
  lemma {:induction false} SelectCounts(s: seq<LogEntry>, q: Query, e: LogEntry)
    ensures multiset(Select(s, q))[e] == if Matches(q, e) then multiset(s)[e] else 0
    ensures e in Select(s, q) <==> e in s && Matches(q, e)
    decreases |s|
  {
    if |s| > 0 {
      assert s == [s[0]] + s[1..];
      SelectCounts(s[1..], q, e);
    }
  }

  /** `Select` distributes over concatenation, so it keeps the entries'
      relative order. */
  lemma {:induction false} SelectAppend(a: seq<LogEntry>, b: seq<LogEntry>, q: Query)
    ensures Select(a + b, q) == Select(a, q) + Select(b, q)
    decreases |a|
  {
    if |a| > 0 {
      var x, rest := a[0], a[1..];
      var head := if Matches(q, x) then [x] else [];
      calc {
        Select(a + b, q);
        == { SelectHead(a + b, q); assert (a + b)[0] == x && (a + b)[1..] == rest + b; }
        head + Select(rest + b, q);
        == { SelectAppend(rest, b, q); }
        head + (Select(rest, q) + Select(b, q));
        (head + Select(rest, q)) + Select(b, q);
        == { SelectHead(a, q); }
        Select(a, q) + Select(b, q);
      }
    } else {
      assert a + b == b;
    }
  }

  /** One unfolding of `Select` on a non-empty sequence. */
  lemma SelectHead(s: seq<LogEntry>, q: Query)
    requires |s| > 0
    ensures Select(s, q) == (if Matches(q, s[0]) then [s[0]] else []) + Select(s[1..], q)
  {
  }

  /** `getEntriesWithTag`: every captured entry with that tag, and no other. */
  function EntriesWithTag(m: Mock, tag: string): (r: seq<LogEntry>)
    ensures |r| <= |m.entries|
    ensures forall e :: e in r <==> e in m.entries && e.tag == tag
  {
    var r := Select(m.entries, WithTag(tag));
    assert forall e :: e in r <==> e in m.entries && e.tag == tag by {
      forall e ensures e in r <==> e in m.entries && e.tag == tag {
        SelectCounts(m.entries, WithTag(tag), e);
      }
    }
    r
  }

  /** `getEntriesWithPriority`: every captured entry of that priority, and no
      other. */
  function EntriesWithPriority(m: Mock, p: Priority): (r: seq<LogEntry>)
    ensures |r| <= |m.entries|
    ensures forall e :: e in r <==> e in m.entries && e.priority == p
  {
    var r := Select(m.entries, WithPriority(p));
    assert forall e :: e in r <==> e in m.entries && e.priority == p by {
      forall e ensures e in r <==> e in m.entries && e.priority == p {
        SelectCounts(m.entries, WithPriority(p), e);
      }
    }
    r
  }

  /** `getEntriesWithThrowable`: every captured entry that carries a
      throwable, and no other. */
  function EntriesWithThrowable(m: Mock): (r: seq<LogEntry>)
    ensures |r| <= |m.entries|
    ensures forall e :: e in r <==> e in m.entries && e.throwable.Some?
  {
    var r := Select(m.entries, WithThrowable);
    assert forall e :: e in r <==> e in m.entries && e.throwable.Some? by {
      forall e ensures e in r <==> e in m.entries && e.throwable.Some? {
        SelectCounts(m.entries, WithThrowable, e);
      }
    }
    r
  }

  /** After a `log`, each query's answer grows by the new entry exactly when
      the tree accepted it and the entry matches the query. */
  lemma QueryAfterLog(m: Mock, p: Priority, tag: string, message: string, throwable: Option<Throwable>, q: Query)
    ensures var e := LogEntry(p, tag, message, throwable);
            Select(Log(m, p, tag, message, throwable).entries, q)
            == Select(m.entries, q) + (if IsLoggable(m, Some(tag), p) && Matches(q, e) then [e] else [])
  {
    var e := LogEntry(p, tag, message, throwable);
    if IsLoggable(m, Some(tag), p) {
      SelectAppend(m.entries, [e], q);
      assert Select([e], q) == (if Matches(q, e) then [e] else []) + Select([], q);
    }
  }
}

=== FILE: sample_app.dfy ===
/** The pure parts of the sample application: the bounded in-memory tree
    that feeds the on-screen list, the relative-time label and the priority
    badge letter. Clock readings are parameters. */
module SampleApp {
  import opened Wrappers
  import opened Logging
  import opened Seqs
  import opened Decimal

  /** The sample's `LogEntry`, stamped with epoch milliseconds. */
  datatype LogEntry = LogEntry(priority: Priority, tag: string, message: string,
                               throwable: Option<Throwable>, timestamp: int)

  /** Capacity of the in-memory buffer. */
  const MaxEntries: nat := 100

  /** `_logs.add(0, entry)` followed by `removeRange(100, size)` when the list
      has grown past 100. */
  function Push(logs: seq<LogEntry>, e: LogEntry): (r: seq<LogEntry>)
    ensures |r| > 0 && r[0] == e
    ensures |r| == if |logs| < MaxEntries then |logs| + 1 else MaxEntries
    ensures r[1..] <= logs
  {
    var grown := [e] + logs;
    if |grown| > MaxEntries then grown[..MaxEntries] else grown
  }

  /** `InMemoryLogTree.log` at clock reading `now`: the newest entry first,
      older ones after it in their previous order, the oldest dropped once
      100 are held. */
  function InMemoryLog(logs: seq<LogEntry>, p: Priority, tag: string, message: string,
                       throwable: Option<Throwable>, now: int): (r: seq<LogEntry>)
    ensures |r| > 0 && r[0] == LogEntry(p, tag, message, throwable, now)
    ensures |r| == if |logs| < MaxEntries then |logs| + 1 else MaxEntries
    ensures r[1..] <= logs
  {
    Push(logs, LogEntry(p, tag, message, throwable, now))
  }

  /** The buffer after logging `es` in order, starting from an empty tree. */
  function Replay(es: seq<LogEntry>): seq<LogEntry> {
    if |es| == 0 then [] else Push(Replay(es[..|es| - 1]), es[|es| - 1])
  }

  lemma ReverseSnoc<T>(s: seq<T>, x: T)
    ensures Reverse(s + [x]) == [x] + Reverse(s)
  {
    var l := Reverse(s + [x]);
    var r := [x] + Reverse(s);
    assert forall i :: 0 <= i < |l| ==> l[i] == r[i];
  }

  /** Whatever was logged, the buffer is the 100 most recent entries, newest
      first. */
  lemma {:induction false} ReplayKeepsNewest(es: seq<LogEntry>)
    ensures Replay(es) == Take(Reverse(es), MaxEntries)
    decreases |es|
  {
    if |es| > 0 {
      var init := es[..|es| - 1];
      var e := es[|es| - 1];
      ReplayKeepsNewest(init);
      assert es == init + [e];
      ReverseSnoc(init, e);
      var rev := Reverse(init);
      var l := Push(Take(rev, MaxEntries), e);
      var r := Take([e] + rev, MaxEntries);
      assert |l| == |r|;
      assert forall i :: 0 <= i < |l| ==> l[i] == r[i];
    }
  }

  const MillisPerSecond: int := 1000
  const MillisPerMinute: int := 60000
  const MillisPerHour: int := 3600000

  /** The relative-time bucket a label shows. */
  datatype Age = JustNow | SecondsAgo(n: nat) | MinutesAgo(n: nat) | HoursAgo(n: nat)

  /** `a` is the right label for an age of `diff` milliseconds: under a second
      is "just now", and otherwise the largest unit that fits, counted in
      whole units rounded down. */
  predicate Describes(diff: int, a: Age) {
    match a
    case JustNow => diff < MillisPerSecond
    case SecondsAgo(n) =>
      MillisPerSecond <= diff < MillisPerMinute && n * MillisPerSecond <= diff < (n + 1) * MillisPerSecond
    case MinutesAgo(n) =>
      MillisPerMinute <= diff < MillisPerHour && n * MillisPerMinute <= diff < (n + 1) * MillisPerMinute
    case HoursAgo(n) =>
      MillisPerHour <= diff && n * MillisPerHour <= diff < (n + 1) * MillisPerHour
  }

  /** Exactly one bucket describes each age. */
  lemma DescribesUnique(diff: int, a: Age, b: Age)
    requires Describes(diff, a) && Describes(diff, b)
    ensures a == b
  {
  }

  function AgeOf(diff: int): (a: Age)
    ensures Describes(diff, a)
  {
    if diff < MillisPerSecond then JustNow
    else if diff < MillisPerMinute then SecondsAgo(diff / MillisPerSecond)
    else if diff < MillisPerHour then MinutesAgo(diff / MillisPerMinute)
    else HoursAgo(diff / MillisPerHour)
  }

  function Render(a: Age): string {
    match a
    case JustNow => "Just now"
    case SecondsAgo(n) => NatToString(n) + "s ago"
    case MinutesAgo(n) => NatToString(n) + "m ago"
    case HoursAgo(n) => NatToString(n) + "h ago"
  }

  /** Different buckets never share a label, so the label determines the
      bucket and its count. */
  lemma RenderInjective(a: Age, b: Age)
    requires Render(a) == Render(b)
    ensures a == b
  {
    var s := Render(a);
    if !a.JustNow? && !b.JustNow? {
      var da := NatToString(a.n);
      var db := NatToString(b.n);
      assert |da| == |db|;
      assert da == s[..|da|] == db;
      NatToStringInjective(a.n, b.n);
      // the unit letter sits five characters from the end
      assert s[|s| - 5] == Render(b)[|Render(b)| - 5];
    } else if !a.JustNow? {
      CountLabelIsNotJustNow(a);
    } else if !b.JustNow? {
      CountLabelIsNotJustNow(b);
    }
  }

  lemma CountLabelIsNotJustNow(a: Age)
    requires !a.JustNow?
    ensures Render(a) != "Just now"
  {
    assert IsDigit(Render(a)[0]);
  }

  /** The `when` of `formatTimestamp` applied to a difference in
      milliseconds. A negative difference (an entry from the future) is
      "Just now". */
  function FormatAge(diff: int): (r: string)
    ensures forall a :: Describes(diff, a) ==> r == Render(a)
  {
    if diff < 1000 then "Just now"
    else if diff < 60000 then NatToString(diff / 1000) + "s ago"
    else if diff < 3600000 then NatToString(diff / 60000) + "m ago"
    else NatToString(diff / 3600000) + "h ago"
  }

  const LongMin: int := -0x8000_0000_0000_0000
  const LongMax: int := 0x7FFF_FFFF_FFFF_FFFF

  predicate IsLong(x: int) {
    LongMin <= x <= LongMax
  }

  /** Kotlin's `Long` subtraction, which wraps around on overflow. */
  function LongMinus(a: int, b: int): (r: int)
    requires IsLong(a) && IsLong(b)
    ensures IsLong(r)
    ensures IsLong(a - b) ==> r == a - b
    ensures (r - (a - b)) % 0x1_0000_0000_0000_0000 == 0
  {
    var d := a - b;
    if d > LongMax then d - 0x1_0000_0000_0000_0000
    else if d < LongMin then d + 0x1_0000_0000_0000_0000
    else d
  }

  /** `formatTimestamp(timestamp)` read at clock value `now`. */
  function FormatTimestamp(now: int, timestamp: int): (r: string)
    requires IsLong(now) && IsLong(timestamp)
    ensures IsLong(now - timestamp) && timestamp <= now ==> r == Render(AgeOf(now - timestamp))
    ensures IsLong(now - timestamp) && now < timestamp ==> r == "Just now"
  {
    FormatAge(LongMinus(now, timestamp))
  }

  /** The letter on an entry's badge. */
  function PriorityLetter(p: Priority): (c: char)
    ensures c == Name(p)[0]
  {
    match p
    case Verbose => 'V'
    case Debug => 'D'
    case Info => 'I'
    case Warning => 'W'
    case Error => 'E'
  }

  /** The badge letter tells the priority apart. */
  lemma PriorityLetterInjective(p: Priority, q: Priority)
    requires PriorityLetter(p) == PriorityLetter(q)
    ensures p == q
  {
  }
}

=== FILE: seqs.dfy ===
/** Generic sequence operations used by the registry and the platform trees. */
module Seqs {

  /** `n` copies of `x`. */
  function Repeat<T>(x: T, n: nat): (r: seq<T>)
    ensures |r| == n
    ensures forall i :: 0 <= i < n ==> r[i] == x
  {
    if n == 0 then [] else [x] + Repeat(x, n - 1)
  }

  lemma RepeatSucc<T>(x: T, n: nat)
    ensures Repeat(x, n + 1) == [x] + Repeat(x, n)
    ensures Repeat(x, n + 1) == Repeat(x, n) + [x]
  {
    assert Repeat(x, n + 1) == Repeat(x, n) + [x];
  }

  /** Kotlin's `MutableList.remove(element)`: drops the first occurrence of `x`,
      if there is one, and keeps every other element in its place. */
  function RemoveFirst<T(==)>(s: seq<T>, x: T): (r: seq<T>)
    ensures x !in s ==> r == s
    ensures x in s ==> |r| == |s| - 1
  {
    if |s| == 0 then s
    else if s[0] == x then s[1..]
    else [s[0]] + RemoveFirst(s[1..], x)
  }

  /** Exactly one occurrence of `x` goes, when there is one. */
  lemma {:induction false} RemoveFirstCounts<T>(s: seq<T>, x: T)
    ensures multiset(RemoveFirst(s, x)) == multiset(s) - multiset{x}
    decreases |s|
  {
    if |s| > 0 {
      assert s == [s[0]] + s[1..];
      if s[0] != x {
        RemoveFirstCounts(s[1..], x);
      }
    }
  }

  /** `n` successive first-occurrence removals of `x`. */
  function RemoveTimes<T(==)>(s: seq<T>, x: T, n: nat): seq<T>
    decreases n
  {
    if n == 0 then s else RemoveTimes(RemoveFirst(s, x), x, n - 1)
  }

  /** After `n` removals of `x`, `x` occurs `n` times fewer (but not fewer
      than zero times) and every other element as often as before. */
  lemma {:induction false} RemoveTimesCount<T>(s: seq<T>, x: T, n: nat, y: T)
    ensures multiset(RemoveTimes(s, x, n))[y] ==
      if y != x then multiset(s)[y]
      else if n <= multiset(s)[x] then multiset(s)[x] - n
      else 0
    decreases n
  {
    if n > 0 {
      var s' := RemoveFirst(s, x);
      RemoveFirstCounts(s, x);
      assert multiset(s')[y] == if y == x && multiset(s)[x] > 0 then multiset(s)[x] - 1 else multiset(s)[y];
      assert RemoveTimes(s, x, n) == RemoveTimes(s', x, n - 1);
      RemoveTimesCount(s', x, n - 1, y);
    }
  }

  /** Index of the first occurrence of `x` in `s`. */
  function IndexOf<T(==)>(s: seq<T>, x: T): (i: nat)
    requires x in s
    ensures i < |s| && s[i] == x
    ensures forall j :: 0 <= j < i ==> s[j] != x
  {
    if s[0] == x then 0 else 1 + IndexOf(s[1..], x)
  }

  /** Removing the first occurrence cuts `s` at exactly that index: the
      elements before and after it stay where they were, in order. */
  lemma {:induction false} RemoveFirstSplits<T>(s: seq<T>, x: T)
    requires x in s
    ensures RemoveFirst(s, x) == s[..IndexOf(s, x)] + s[IndexOf(s, x) + 1..]
    decreases |s|
  {
    if s[0] != x {
      var t := s[1..];
      RemoveFirstSplits(t, x);
      var i := IndexOf(t, x);
      assert IndexOf(s, x) == i + 1;
      assert RemoveFirst(s, x) == [s[0]] + RemoveFirst(t, x);
      assert t[..i] == s[1..i + 1] && t[i + 1..] == s[i + 2..];
      assert [s[0]] + s[1..i + 1] == s[..i + 1];
    } else {
      assert IndexOf(s, x) == 0;
      assert s[..0] + s[1..] == s[1..];
    }
  }

  /** Concatenation of a sequence of pieces. */
  function Flatten<T>(ss: seq<seq<T>>): seq<T> {
    if |ss| == 0 then [] else ss[0] + Flatten(ss[1..])
  }

  /** Kotlin's `CharSequence.chunked(size)`: consecutive windows of `size`
      elements, the last one possibly shorter; the empty input has no chunk. */
  function Chunked<T>(s: seq<T>, size: nat): (r: seq<seq<T>>)
    requires size > 0
    ensures Flatten(r) == s
    ensures |s| == 0 <==> |r| == 0
    ensures forall i :: 0 <= i < |r| ==> 0 < |r[i]| <= size
    ensures forall i :: 0 <= i < |r| - 1 ==> |r[i]| == size
    decreases |s|
  {
    if |s| == 0 then []
    else if |s| <= size then
      assert Flatten([s]) == s + Flatten([s][1..]);
      [s]
    else
      var rest := Chunked(s[size..], size);
      var r := [s[..size]] + rest;
      assert r[1..] == rest;
      assert s == s[..size] + s[size..];
      r
  }

  /** Kotlin's `joinToString(sep)`. */
  function Join<T>(parts: seq<seq<T>>, sep: seq<T>): seq<T> {
    if |parts| == 0 then []
    else if |parts| == 1 then parts[0]
    else parts[0] + sep + Join(parts[1..], sep)
  }

  /** Kotlin's `take(n)`: the longest prefix of length at most `n`. */
  function Take<T>(s: seq<T>, n: nat): (r: seq<T>)
    ensures |r| == if |s| <= n then |s| else n
    ensures r <= s
  {
    if |s| <= n then s else s[..n]
  }

  function Reverse<T>(s: seq<T>): (r: seq<T>)
    ensures |r| == |s|
    ensures forall i :: 0 <= i < |s| ==> r[i] == s[|s| - 1 - i]
  {
    if |s| == 0 then [] else Reverse(s[1..]) + [s[0]]
  }
}

=== FILE: wasm_tree.dfy ===
/** The wasm-JS `PlatformLogTree`: the argument list handed to the browser
    console and the console method chosen for each priority. */
module WasmTree {
  import opened Wrappers
  import opened Logging
  import opened Seqs
  import opened Badges
  import IosTree

  /** The methods of the external `Console` object. */
  datatype ConsoleMethod = ConsoleDebug | ConsoleLog | ConsoleInfo | ConsoleWarn | ConsoleError

  /** The severity the browser console gives each method, from `debug` up
      to `error`; `log` sits at the level of `info`. */
  function Severity(m: ConsoleMethod): nat {
    match m
    case ConsoleDebug => 1
    case ConsoleLog => 2
    case ConsoleInfo => 2
    case ConsoleWarn => 3
    case ConsoleError => 4
  }

  /** The `when (priority)` that picks the console method: Verbose and
      Debug go to `debug`, Info, Warning and Error to `info`, `warn` and
      `error`, and `console.log` is never used. */
  function Route(p: Priority): (m: ConsoleMethod)
    ensures m != ConsoleLog
    ensures m == ConsoleDebug <==> !AtLeast(p, Info)
    ensures m == ConsoleInfo <==> p == Info
    ensures m == ConsoleWarn <==> p == Warning
    ensures m == ConsoleError <==> p == Error
  {
    match p
    case Verbose => ConsoleDebug
    case Debug => ConsoleDebug
    case Info => ConsoleInfo
    case Warning => ConsoleWarn
    case Error => ConsoleError
  }

  /** Verbose and Debug share `debug`; every other priority has a method of
      its own, `console.log` is never used, and a higher priority never
      reaches a less severe method. */
  lemma RouteShape(p: Priority, q: Priority)
    ensures Route(p) != ConsoleLog
    ensures Route(p) == ConsoleDebug <==> !AtLeast(p, Info)
    ensures Route(p) == Route(q) <==> p == q || (!AtLeast(p, Info) && !AtLeast(q, Info))
    ensures AtLeast(p, q) ==> Severity(Route(p)) >= Severity(Route(q))
  {
  }

  /** This tree takes every event. */
  function IsLoggable(tag: Option<string>, p: Priority): (r: bool)
    ensures r
  {
    true
  }

  /** `fullMessage`: header, message and, when there is a throwable, its
      stack trace as a third argument. */
  function FullMessage(p: Priority, tag: string, message: string, throwable: Option<Throwable>): (args: seq<string>)
    ensures |args| == if throwable.Some? then 3 else 2
    ensures args[0] == Header(p, tag) && args[1] == message
    ensures throwable.Some? ==> args[2] == throwable.value.stackTrace
  {
    [Header(p, tag), message] + (match throwable case Some(t) => [t.stackTrace] case None => [])
  }

  /** One call on the console object. */
  datatype ConsoleCall = ConsoleCall(target: ConsoleMethod, args: seq<string>)

  /** `log`: one console call; Verbose and Debug land on `debug`, nothing on
      `log`, and the arguments, joined with spaces, are the text the iOS
      tree writes for the same event. */
  function Log(p: Priority, tag: string, message: string, throwable: Option<Throwable>): (call: ConsoleCall)
    ensures call.target != ConsoleLog
    ensures call.target == ConsoleDebug <==> !AtLeast(p, Info)
    ensures call.target == ConsoleInfo <==> p == Info
    ensures call.target == ConsoleWarn <==> p == Warning
    ensures call.target == ConsoleError <==> p == Error
    ensures forall q :: Route(q) == call.target <==> q == p || (!AtLeast(p, Info) && !AtLeast(q, Info))
    ensures |call.args| == if throwable.Some? then 3 else 2
    ensures call.args[0] == Header(p, tag) && call.args[1] == message
    ensures Join(call.args, " ") == IosTree.AllText(p, tag, message, throwable)
  {
    SameTextAsIos(p, tag, message, throwable);
    ConsoleCall(Route(p), FullMessage(p, tag, message, throwable))
  }

  /** Joined with spaces, the wasm arguments are exactly the text the iOS
      tree writes. */
  lemma SameTextAsIos(p: Priority, tag: string, message: string, throwable: Option<Throwable>)
    ensures Join(FullMessage(p, tag, message, throwable), " ") == IosTree.AllText(p, tag, message, throwable)
  {
    var args := FullMessage(p, tag, message, throwable);
    assert args[1..][0] == message;
    if throwable.Some? {
      assert args[1..][1..] == [throwable.value.stackTrace];
    } else {
      assert args[1..] == [message];
    }
  }
}

=== FILE: wrappers.dfy ===
/** Kotlin's nullable types (`T?`), modelled as an explicit option. */
module Wrappers {

  datatype Option<+T> = None | Some(value: T) {

    /** The value, or `default` when absent (Kotlin's `?:`). */
    function GetOr(default: T): T {
      match this
      case Some(v) => v
      case None => default
    }
  }
}
